=== FILE: README.md ===
# fastjson_swift: fault-tolerant field decoding, in Dafny

This project models the resilient decoding layer of fastjson_swift. It is written as pure
functions over an abstract JSON value tree. It has three parts.

- **Default registry and resilient field codec** (`Default.swift`). The `Default<T: DefaultValue>`
  property wrapper decodes a field to the value it holds when that value decodes as the tag's
  type, and to the tag's fixed default otherwise. It never throws: a missing key, a `null` and a
  value of the wrong shape all give the default. Keyed encoding always writes the key. The six
  hand-expanded wrappers (`StringAsEmpty`, `IntAsZero`, `FloatAsZero`, `DoubleAsZero`,
  `BoolAsFalse`, `BoolAsTrue`) are modelled as `Default.swift` writes them. The contracts of the
  four `String`, `Int` and `Bool` wrappers tie them to `Default` of the matching tag. The
  `FloatAsZero`/`DoubleAsZero` pair is stated against an opaque float decoder instead, because
  `Default<Float.Zero>` holds an `Int` (see below).
- **The build-mode switch** on `decodeIfPresent` (`JSON.swift`). In a DEBUG build the stock
  behaviour applies. Otherwise an override turns every decode error into `nil`.
- **Document conversion layer** (`JSON.swift`). `toJSONString` (for an object and for an
  array), `parseObject` and `parseArray` classify their own failures as `JSONError` code 1
  (bytes to text) and code 2 (text to bytes). Every other outcome of the encoder or decoder
  passes through unchanged.

Swift's synthesised `Codable` conformance has no Dafny counterpart. It is replaced by an explicit
schema: a record type is an ordered list of fields, each either plain (a primitive decoded with
the stock keyed `decode`) or resilient of a tag `K` (`@Default<K>`). The encoder's writer, the
tokenizer and the UTF-8 conversions are function parameters (`Documents.Backend`). They are
assumed correct only where a lemma says so (`Documents.Faithful`).

Modules, one per file: `Wrappers` (Option, Result), `JsonValue` (JSON tree, primitive decode
and encode), `Containers` (keyed decode, `decodeIfPresent` and the build mode), `Defaults` (the
registry and `Default<T>`), `Specialised` (the six wrappers), `Records` (schemas, record
decode and encode, scenarios), `Conversion` (`JSONError` and the four entry points) and
`Documents` (the entry points instantiated with the record codec).

A reader might expect `Float.Zero` and `Double.Zero` to default to a floating-point `0.0`.
They declare `defaultValue = 0` with no type annotation, so Swift infers their associated
`Value` as `Int`, not `Float`/`Double`, and this model follows the code. Here
`Defaults.ValueType` maps both tags to `IntType` and `Defaults.Registry` maps them to the
integer 0. As a result, `Default<Float.Zero>` decodes a Swift `Int`, while `FloatAsZero` holds a
real `Float` and falls back to `Float` zero.

## Model

| member | source | states |
|---|---|---|
| JsonValue.DecodeInt | fastjson_swift/Codable/Default.swift:136 | `decode(Int.self)` succeeds exactly on a JSON integer inside the 64-bit range and returns it; null is valueNotFound and nothing else is |
| JsonValue.DecodeString | fastjson_swift/Codable/Default.swift:102 | `decode(String.self)` succeeds exactly on a JSON string and returns it; null is valueNotFound and nothing else is |
| JsonValue.DecodeBool | fastjson_swift/Codable/Default.swift:239 | `decode(Bool.self)` succeeds exactly on a JSON boolean and returns it; null is valueNotFound and nothing else is |
| JsonValue.DecodePrim | fastjson_swift/Codable/Default.swift:28 | `decode(T.Value.self)` returns only values of the requested type whose encoding is the input; it reports valueNotFound exactly for null |
| JsonValue.DecodePrimOfToJson | fastjson_swift/Codable/Default.swift:31-34 | decoding what the single-value encoder wrote returns the value, for every value of the type |
| JsonValue.DecodePrimSucceedsIff | fastjson_swift/Codable/Default.swift:28 | a JSON value decodes as a type if and only if it is the encoding of some value of that type |
| Containers.DecodeIfPresent | Codable/JSON.swift:100-110 | the release override never throws; a missing key is `nil` in both builds; DEBUG maps null to `nil`, returns the decoded value for a present non-null value, and throws exactly the decoder's error when that value fails to decode; release returns the decoded value whenever the decoder succeeds, null included, and maps every decode error to `nil` |
| Containers.DecodeForKey | Codable/JSON.swift:104 | the stock keyed `decode(_:forKey:)` that the override calls: a missing key is keyNotFound; otherwise it succeeds exactly when the value at the key decodes, with that value, and throws that decoder's error |
| Containers.ModesAgreeUnlessErrorOrNull | Codable/JSON.swift:100-110 | both builds give the same answer for a missing key and for a non-null value that decodes |
| Containers.ReleaseSwallowsDebugErrors | Codable/JSON.swift:103-108 | whenever the stock `decodeIfPresent` throws, the release override returns `nil` |
| Defaults.Registry | fastjson_swift/Codable/Default.swift:54-86 | every tag has a default of its associated type, and that default survives its own encode and decode |
| Defaults.RegistryTable | fastjson_swift/Codable/Default.swift:54-86 | the table: `Int.Zero`, `Float.Zero`, `Double.Zero` give integer 0 of type `Int`; `String.Empty` gives ""; `Bool.False` gives false; `Bool.True` gives true |
| Defaults.Init | fastjson_swift/Codable/Default.swift:20-22 | `init(wrappedValue:)` stores the given value unchanged; a value other than the default never becomes the default |
| Defaults.DecodeSingle | fastjson_swift/Codable/Default.swift:26-29 | single-value decode never fails, yields a value of the tag's type, and that value is either the default or exactly the one the JSON holds |
| Defaults.DecodeSingleRoundTrip | fastjson_swift/Codable/Default.swift:26-34 | single-value decode of the single-value encoding returns the wrapper unchanged |
| Defaults.DecodeSingleFallsBack | fastjson_swift/Codable/Default.swift:28 | a JSON value that encodes no value of the tag's type decodes to the default |
| Defaults.EncodeSingle | fastjson_swift/Codable/Default.swift:31-34 | single-value encode never writes null; for a well-typed wrapper the type's own decoder reads the held value back from it, so single-value decode returns the wrapper |
| Defaults.KeyedDecode | fastjson_swift/Codable/Default.swift:42-46 | keyed decode never throws in either build; a missing key gives the default; a present key gives what single-value decode gives |
| Defaults.KeyedEncode | fastjson_swift/Codable/Default.swift:48-52 | keyed encode always writes the held value at the key, adds no other key, and leaves every other key unchanged |
| Defaults.KeyedAbsentOrNull | fastjson_swift/Codable/Default.swift:42-46 | a missing key and a null value both decode to the default |
| Defaults.KeyedWrongShape | fastjson_swift/Codable/Default.swift:42-46 | a present value that does not decode as the tag's type decodes to the default, not to an error |
| Defaults.KeyedPresent | fastjson_swift/Codable/Default.swift:42-46 | a present value of the tag's type is kept exactly |
| Defaults.KeyedDecodeModeIndependent | Codable/JSON.swift:100-110 | the DEBUG switch does not change what a `Default` field decodes to |
| Defaults.KeyedRoundTrip | fastjson_swift/Codable/Default.swift:42-52 | keyed decode of a key just written by keyed encode returns the same wrapper |
| Defaults.InitRoundTrip | fastjson_swift/Codable/Default.swift:20-22 | a directly built wrapper survives keyed encode and decode with its value |
| Specialised.StringAsEmptyDecode | fastjson_swift/Codable/Default.swift:99-103 | `StringAsEmpty` single-value decode equals `Default<String.Empty>` |
| Specialised.StringAsEmptyKeyed | fastjson_swift/Codable/Default.swift:111-115 | `StringAsEmpty` keyed decode never throws and equals `Default<String.Empty>` keyed decode |
| Specialised.StringAsEmptyEncode | fastjson_swift/Codable/Default.swift:117-121 | `StringAsEmpty` keyed encode equals `Default<String.Empty>` keyed encode |
| Specialised.IntAsZeroDecode | fastjson_swift/Codable/Default.swift:133-137 | `IntAsZero` single-value decode equals `Default<Int.Zero>` |
| Specialised.IntAsZeroKeyed | fastjson_swift/Codable/Default.swift:145-149 | `IntAsZero` keyed decode never throws and equals `Default<Int.Zero>` keyed decode |
| Specialised.IntAsZeroEncode | fastjson_swift/Codable/Default.swift:151-155 | `IntAsZero` keyed encode equals `Default<Int.Zero>` keyed encode |
| Specialised.BoolAsFalseDecode | fastjson_swift/Codable/Default.swift:236-240 | `BoolAsFalse` single-value decode equals `Default<Bool.False>` |
| Specialised.BoolAsFalseKeyed | fastjson_swift/Codable/Default.swift:270-272 | `BoolAsFalse` keyed decode never throws and equals `Default<Bool.False>` keyed decode |
| Specialised.BoolAsFalseEncode | fastjson_swift/Codable/Default.swift:280-282 | `BoolAsFalse` keyed encode equals `Default<Bool.False>` keyed encode |
| Specialised.BoolAsTrueDecode | fastjson_swift/Codable/Default.swift:257-261 | `BoolAsTrue` single-value decode equals `Default<Bool.True>` |
| Specialised.BoolAsTrueKeyed | fastjson_swift/Codable/Default.swift:274-276 | `BoolAsTrue` keyed decode never throws and equals `Default<Bool.True>` keyed decode |
| Specialised.BoolAsTrueEncode | fastjson_swift/Codable/Default.swift:284-286 | `BoolAsTrue` keyed encode equals `Default<Bool.True>` keyed encode |
| Specialised.FloatAsZeroDecode | fastjson_swift/Codable/Default.swift:167-171 | `FloatAsZero`/`DoubleAsZero` decode gives the decoded float whenever the float decode succeeds, and the float zero whenever it fails |
| Specialised.FloatAsZeroKeyed | fastjson_swift/Codable/Default.swift:179-183 | keyed decode of `FloatAsZero`/`DoubleAsZero` never throws; a missing key, or a null the decoder rejects, gives the zero; a present value gives what single-value decode gives |
| Specialised.FloatAsZeroEncode | fastjson_swift/Codable/Default.swift:185-189 | keyed encode of `FloatAsZero`/`DoubleAsZero` writes the held value at the key and nothing else changes |
| Specialised.FloatAsZeroRoundTrip | fastjson_swift/Codable/Default.swift:179-189 | a float the decoder reads back from its encoding survives keyed encode and decode |
| Records.DecodeField | fastjson_swift/Codable/Default.swift:42-46 | a resilient field never fails; a plain field decodes if and only if its key is present and its value decodes as its type |
| Records.DecodeFields | fastjson_swift/ViewController.swift:21-23 | a record's fields decode if and only if every field decodes, and the record holds exactly each field's decoded value; on failure the error thrown is that of the first failing field in declaration order |
| Records.DecodeRecord | Codable/JSON.swift:83 | a record decodes only from a JSON object, and from an object exactly when every field decodes, each field holding its own decode's value whatever other keys the object has; the error is the first failing field's; null is valueNotFound and any other JSON value is a typeMismatch |
| Records.EncodeField | fastjson_swift/Codable/Default.swift:48-52 | encoding one field writes its value's encoding at its key, adds no other key, and keeps every other key |
| Records.EncodeFields | fastjson_swift/Codable/Default.swift:48-52 | encoding writes every field's value at its key, adds no other key, and keeps any other key unchanged |
| Records.EncodeRecord | fastjson_swift/Codable/Default.swift:48-52 | a record encodes to a JSON object whose keys are exactly the schema's coding keys, each holding the encoding of its field's value |
| Records.DecodeFieldOfEncoded | fastjson_swift/Codable/Default.swift:26-52 | a field decodes to the value encoded at its key, plain or resilient |
| Records.RecordRoundTrip | fastjson_swift/Codable/Default.swift:26-52 | decoding an encoded record gives the record back, in either build |
| Records.DecodeEncodeDecode | fastjson_swift/Codable/Default.swift:26-52 | re-encoding a decoded record and decoding it again gives the first decode's result |
| Records.ResilientRecordNeverFails | fastjson_swift/Codable/Default.swift:42-46 | a record whose fields are all resilient decodes from every JSON object |
| Records.RecordDecodesIff | Codable/JSON.swift:83 | a record decodes if and only if each plain field is present and decodes as its type |
| Records.ResilientFieldTakesDefault | fastjson_swift/Codable/Default.swift:42-46 | a resilient field whose key is missing, null, or of the wrong shape holds the registry default |
| Records.PlainFieldMissingFails | Codable/JSON.swift:83 | a missing plain field makes the whole record fail |
| Records.PlainFieldWrongShapeFails | Codable/JSON.swift:83 | a plain field of the wrong shape makes the whole record fail |
| Records.ScenarioMisspelledKey | fastjson_swift/ViewController.swift:15-22 | `{"ndame": "Andy"}` decoded as `Body` with `@Default<Bool.True> var name` gives `name == true` without error |
| Records.ScenarioWrongShape | fastjson_swift/Codable/Default.swift:42-46 | `{"count": "oops"}` with `@Default<Int.Zero> var count` gives 0 |
| Records.ScenarioPresent | fastjson_swift/Codable/Default.swift:42-46 | `{"count": 42}` with the same field gives 42 |
| Records.ScenarioOverflow | fastjson_swift/Codable/Default.swift:26-29 | a number one past the 64-bit maximum does not fit `Int`, so the field gives 0 |
| Records.ScenarioExtraKeyIgnored | Codable/JSON.swift:83 | `{"a": 5, "b": 7, "x": 1}` decoded as `struct { var a: Int; var b: Int }` gives `a == 5`, `b == 7`; the extra key is ignored |
| Records.ScenarioFirstErrorWins | Codable/JSON.swift:83 | `{"a": "x"}` decoded as the same struct throws typeMismatch for `a`, not keyNotFound for `b` |
| Records.ScenarioPlainWrongShape | Codable/JSON.swift:83 | `{"count": "oops"}` with a plain `var count: Int` is a typeMismatch error |
| Conversion.MakeJSONError | Codable/JSON.swift:10-21 | `JSONError(code:message:)` stores both unchanged, and `localizedDescription` is the message |
| Conversion.ToJSONString | Codable/JSON.swift:50-58 | succeeds exactly when the encoder succeeds and its bytes read as UTF-8, with that text; an encoder error passes through; bad UTF-8 throws code 1 |
| Conversion.ToJSONStringArray | Codable/JSON.swift:64-71 | the array form behaves as the object form applied to the array encoder |
| Conversion.ParseObject | Codable/JSON.swift:79-84 | text without UTF-8 bytes throws code 2; otherwise the decoder's result or error is returned unchanged |
| Conversion.ParseArray | Codable/JSON.swift:92-97 | the array form behaves as `parseObject` applied to the array decoder |
| Conversion.ParseSkipsDecoderOnBadText | Codable/JSON.swift:79-82 | when the UTF-8 precheck fails, the decoder has no influence on the result |
| Conversion.ToJSONStringErrorClassified | Codable/JSON.swift:50-58 | `toJSONString` throws its own `JSONError` exactly when the bytes are not UTF-8, and then with code 1 and description equal to message |
| Conversion.ParseObjectErrorClassified | Codable/JSON.swift:79-84 | `parseObject` throws its own `JSONError` exactly when the text has no UTF-8 bytes, and then with code 2 and description equal to message |
| Conversion.ErrorCodesDistinct | Codable/JSON.swift:56-81 | the two conversion failures have distinct codes and messages |
| Documents.DecodeRecordList | Codable/JSON.swift:92-97 | an array of records decodes if and only if every element decodes, and holds exactly each element's record; on failure the error thrown is that of the first failing element |
| Documents.EncodeRecordList | Codable/JSON.swift:40-44 | an array of records encodes to a JSON array holding each record's encoding in order |
| Documents.EncodeDocument | Codable/JSON.swift:29-33 | `encoder.encode(object)` succeeds exactly for a record that fits its schema, with the bytes written for the record's JSON object; otherwise it is an encoding error |
| Documents.EncodeDocumentList | Codable/JSON.swift:39-43 | `encoder.encode(array)` succeeds exactly when every record fits the schema, with the bytes written for the JSON array; otherwise it is an encoding error |
| Documents.DecodeDocument | Codable/JSON.swift:83 | `JSONDecoder().decode` of a record: bytes that do not tokenize are dataCorrupted; otherwise it succeeds exactly when the record decodes, with that record, and throws the record decode's error |
| Documents.DecodeDocumentList | Codable/JSON.swift:96 | `JSONDecoder().decode` of an array: bad syntax is dataCorrupted, a null top level is valueNotFound, any other non-array is typeMismatch; otherwise it succeeds exactly when every element decodes, with those records |
| Documents.EncodeToText | Codable/JSON.swift:50-58 | converting a record to text returns the UTF-8 reading of the bytes written for the record's JSON object; it fails only with code 1, exactly when those bytes are not UTF-8 |
| Documents.EncodeListToText | Codable/JSON.swift:64-71 | converting an array of records returns the UTF-8 reading of the bytes written for the JSON array; it fails only with code 1, exactly when those bytes are not UTF-8 |
| Documents.DecodeFromText | Codable/JSON.swift:79-84 | a parsed record conforms to its schema and comes from text with UTF-8 bytes that tokenize; text without UTF-8 bytes throws code 2 |
| Documents.DecodeListFromText | Codable/JSON.swift:92-97 | every parsed record conforms to its schema; text without UTF-8 bytes throws code 2 |
| Documents.TextRoundTrip | Codable/JSON.swift:50-84 | with a correct backend, parsing the text of a record gives the record back |
| Documents.ListTextRoundTrip | Codable/JSON.swift:64-97 | with a correct backend, parsing the text of an array of records gives the array back |
| Documents.BadSyntaxIsError | Codable/JSON.swift:79-84 | text that is not valid JSON gives a dataCorrupted error, never a partial record |
| Documents.NullDocumentIsValueNotFound | Codable/JSON.swift:79-97 | a `null` document parsed as a record or as an array of records throws valueNotFound |
| Documents.ResilientDocumentParses | Codable/JSON.swift:79-84 | a record type with only resilient fields parses from any text holding a JSON object |
| Documents.PlainFieldMissingDocumentFails | Codable/JSON.swift:83 | a missing plain field makes `parseObject` throw a decoding error |
| Documents.ScenarioParseBody | fastjson_swift/ViewController.swift:15-22 | `parseObject` of `{"ndame": "Andy"}` as `Body` returns `name == true` |

## Left out

- JSON numbers with a fraction, and floating-point values generally. The JSON tree has integers
  only. The value held by `FloatAsZero`/`DoubleAsZero` is an opaque type parameter with a
  caller-supplied decoder and zero, so no float arithmetic or number parsing is modelled.
- JSONDecoder's coercion rules beyond those stated: integers, strings and booleans are kept
  strictly apart, and an integer outside 64 bits fails. Key and date decoding strategies are
  not modelled.
- The JSON tokenizer, the pretty-printing writer and UTF-8 validity. They are parameters of
  `Documents.Backend`, not byte-level definitions.
- `toData(_:)` for a value and for an array. These are folded into the encoder parameter of
  `Conversion.ToJSONString`, because they only call the encoder.
- Optional (`T?`) plain fields, and which `decodeIfPresent` overload Swift picks for them. This
  depends on overload resolution. The override itself is modelled generically in
  `Containers.DecodeIfPresent`.
- Nested records and arrays inside a record. Fields are primitives only, because `Default<T>`
  only wraps the primitive `Value` types of the registry.
- `init(wrappedValue:)` and single-value `encode(to:)` of the six specialised wrappers. They
  store the given value unchanged and write it unchanged, as `Defaults.Init` and
  `Defaults.EncodeSingle` do for `Default`.
- JSONEncoder failures on values it cannot represent. The only encoder error modelled is a
  record that does not fit its schema, which Swift's type system rules out.
- Unicode canonical equivalence of keys and strings. Keys and string values are Dafny strings,
  compared code point by code point. Swift `String` equality and hashing use canonical
  equivalence, so in Swift a document key `"cafe\u0301"` finds the coding key `"café"`. The
  model reports that key missing and, for a resilient field, substitutes the default.
- `ViewController`, UIKit and the `print` of the result. Only the decoded scenario is kept.
- Documents.DecodeFromText: its contract states conformance and the code-2 case only. The full
  behaviour is stated by `Conversion.ParseObject` and the lemmas `Documents.TextRoundTrip`,
  `Documents.BadSyntaxIsError` and `Documents.ResilientDocumentParses`.
- Documents.DecodeListFromText: its contract states conformance and the code-2 case only. The full
  behaviour is stated by `Conversion.ParseArray` and `Documents.ListTextRoundTrip`.

=== FILE: containers.dfy ===
/** Keyed access into a decoded JSON object, as Codable's KeyedDecodingContainer
    performs it, including the build-mode switch on `decodeIfPresent` in
    Codable/JSON.swift. A type's own decoder is passed in as a function. */
module Containers {
  import opened Wrappers
  import opened JsonValue

  /** Whether the `DEBUG` compilation condition is set. */
  datatype BuildMode = Debug | Release

  /** Stock `decode(_:forKey:)`: a missing key is keyNotFound; otherwise the value
      at the key, null included, goes to the type's own decoder. */
  function DecodeForKey<T>(obj: map<string, Json>, key: string,
                           decode: Json -> Result<T, DecodingError>): (r: Result<T, DecodingError>)
    ensures r.Ok? <==> key in obj && decode(obj[key]).Ok?
    ensures r.Ok? ==> decode(obj[key]) == Ok(r.value)
    ensures key !in obj ==> r == Err(KeyNotFound(key))
    ensures key in obj && decode(obj[key]).Err? ==> r == Err(decode(obj[key]).error)
  {
    if key in obj then decode(obj[key]) else Err(KeyNotFound(key))
  }

  /** `decodeIfPresent(_:forKey:)`. In a DEBUG build the stock behaviour: a missing
      key or a null value is `nil`, any other value is decoded and its error thrown.
      Otherwise the override: `try? decode(type, forKey: key)`, so every error,
      a missing key included, becomes `nil`. */
  function DecodeIfPresent<T>(mode: BuildMode, obj: map<string, Json>, key: string,
                              decode: Json -> Result<T, DecodingError>): (r: Result<Option<T>, DecodingError>)
    ensures mode == Release ==> r.Ok?
    ensures key !in obj ==> r == Ok(None)
    ensures mode == Debug && key in obj && obj[key] == JNull ==> r == Ok(None)
    ensures r.Ok? && r.value.Some? ==> key in obj && decode(obj[key]) == Ok(r.value.value)
    ensures key in obj && obj[key] != JNull && decode(obj[key]).Ok? ==>
      r == Ok(Some(decode(obj[key]).value))
    ensures r.Err? ==>
      mode == Debug && key in obj && obj[key] != JNull && decode(obj[key]) == Err(r.error)
    ensures mode == Release && key in obj && decode(obj[key]).Ok? ==>
      r == Ok(Some(decode(obj[key]).value))
    ensures mode == Release && key in obj && decode(obj[key]).Err? ==> r == Ok(None)
    ensures mode == Debug && key in obj && obj[key] != JNull && decode(obj[key]).Err? ==>
      r == Err(decode(obj[key]).error)
  {
    match mode
    case Debug =>
      if key !in obj || obj[key] == JNull then Ok(None)
      else decode(obj[key]).MapValue(v => Some(v))
    case Release =>
      Ok(DecodeForKey(obj, key, decode).ToOption())
  }

  /** The two builds differ only where the release override swallows an error
      (or, for a null, hands it to the decoder instead of answering `nil`). */
  lemma ModesAgreeUnlessErrorOrNull<T>(obj: map<string, Json>, key: string,
                                       decode: Json -> Result<T, DecodingError>)
    requires key !in obj || (obj[key] != JNull && decode(obj[key]).Ok?)
    ensures DecodeIfPresent(Debug, obj, key, decode) == DecodeIfPresent(Release, obj, key, decode)
  {
  }

  /** Whatever error the stock version throws, the release override answers `nil`. */
  lemma ReleaseSwallowsDebugErrors<T>(obj: map<string, Json>, key: string,
                                      decode: Json -> Result<T, DecodingError>)
    requires DecodeIfPresent(Debug, obj, key, decode).Err?
    ensures DecodeIfPresent(Release, obj, key, decode) == Ok(None)
  {
  }
}

=== FILE: conversion.dfy ===
/** The `JSON` facade of Codable/JSON.swift: `toJSONString` for a value and for
    an array, `parseObject`, `parseArray`, and `JSONError`. Each one marshals
    between text and bytes and passes the encoder's or decoder's outcome through.
    The encoder (JSONEncoder with `.prettyPrinted`), the decoder (JSONDecoder) and
    the UTF-8 conversions are parameters of this module. */
module Conversion {
  import opened Wrappers
  import opened JsonValue

  type Bytes = seq<bv8>

  datatype JSONError = JSONError(code: int, message: string) {

    /** `localizedDescription`, which answers the stored message. */
    function LocalizedDescription(): string {
      message
    }
  }

  /** Thrown when the encoder's bytes are not valid UTF-8. */
  const DataToStringFailed: JSONError := JSONError(1, "Data 转 JSONString 失败")

  /** Thrown when the text cannot be converted to UTF-8 bytes. */
  const StringToDataFailed: JSONError := JSONError(2, "JSONString 转 Data 失败")

  /** Everything a call of this layer can throw: its own `JSONError`, or whatever
      the decoder or the encoder threw. */
  datatype Thrown =
    | Conversion(e: JSONError)
    | Decoding(d: DecodingError)
    | Encoding(reason: string)

  /** `JSONError(code:message:)`. */
  function MakeJSONError(code: int, message: string): (e: JSONError)
    ensures e.code == code && e.message == message
    ensures e.LocalizedDescription() == message
  {
    JSONError(code, message)
  }

  /** `toJSONString(_ object:)`: encode, then read the bytes as UTF-8. An encoder
      error is thrown unchanged; bytes that are not UTF-8 throw code 1. */
  function ToJSONString<T>(encode: T -> Result<Bytes, Thrown>, utf8String: Bytes -> Option<string>,
                           item: T): (r: Result<string, Thrown>)
    ensures r.Ok? <==> encode(item).Ok? && utf8String(encode(item).value).Some?
    ensures r.Ok? ==> utf8String(encode(item).value) == Some(r.value)
    ensures encode(item).Err? ==> r == Err(encode(item).error)
    ensures encode(item).Ok? && utf8String(encode(item).value).None? ==>
      r == Err(Conversion(DataToStringFailed))
  {
    match encode(item)
    case Err(e) => Err(e)
    case Ok(data) =>
      match utf8String(data)
      case Some(text) => Ok(text)
      case None => Err(Conversion(DataToStringFailed))
  }

  /** `toJSONString(_ array:)`: the same contract as the object form, applied to the
      array encoder. */
  function ToJSONStringArray<T>(encodeArray: seq<T> -> Result<Bytes, Thrown>,
                                utf8String: Bytes -> Option<string>,
                                items: seq<T>): (r: Result<string, Thrown>)
    ensures r == ToJSONString(encodeArray, utf8String, items)
  {
    match encodeArray(items)
    case Err(e) => Err(e)
    case Ok(data) =>
      match utf8String(data)
      case Some(text) => Ok(text)
      case None => Err(Conversion(DataToStringFailed))
  }

  /** `parseObject(_:type:)`: text that has no UTF-8 bytes throws code 2; otherwise
      the decoder's result or error is returned unchanged. */
  function ParseObject<T>(utf8Data: string -> Option<Bytes>, decode: Bytes -> Result<T, Thrown>,
                          text: string): (r: Result<T, Thrown>)
    ensures utf8Data(text).None? ==> r == Err(Conversion(StringToDataFailed))
    ensures utf8Data(text).Some? ==> r == decode(utf8Data(text).value)
  {
    match utf8Data(text)
    case None => Err(Conversion(StringToDataFailed))
    case Some(data) => decode(data)
  }

  /** `parseArray(_:type:)`: the same precheck and pass-through, for an array type. */
  function ParseArray<T>(utf8Data: string -> Option<Bytes>, decodeArray: Bytes -> Result<seq<T>, Thrown>,
                         text: string): (r: Result<seq<T>, Thrown>)
    ensures r == ParseObject(utf8Data, decodeArray, text)
  {
    match utf8Data(text)
    case None => Err(Conversion(StringToDataFailed))
    case Some(data) => decodeArray(data)
  }

  /** When the UTF-8 precheck fails no decoding is attempted: the decoder does not
      influence the result. */
  lemma ParseSkipsDecoderOnBadText<T>(utf8Data: string -> Option<Bytes>, d1: Bytes -> Result<T, Thrown>,
                                      d2: Bytes -> Result<T, Thrown>, text: string)
    requires utf8Data(text).None?
    ensures ParseObject(utf8Data, d1, text) == ParseObject(utf8Data, d2, text)
  {
  }

  /** Error classification of `toJSONString`: it throws a `JSONError` of its own
      exactly when the encoder succeeded and its bytes were not UTF-8, and then
      with code 1, whose description is its message. */
  lemma ToJSONStringErrorClassified<T>(encode: T -> Result<Bytes, Thrown>,
                                       utf8String: Bytes -> Option<string>, item: T)
    requires forall x :: encode(x).Err? ==> !encode(x).error.Conversion?
    ensures var r := ToJSONString(encode, utf8String, item);
      (r.Err? && r.error.Conversion?) <==> (encode(item).Ok? && utf8String(encode(item).value).None?)
    ensures var r := ToJSONString(encode, utf8String, item);
      r.Err? && r.error.Conversion? ==>
        r.error.e.code == 1 && r.error.e.LocalizedDescription() == r.error.e.message
  {
  }

  /** Error classification of `parseObject`: with a decoder that throws only decoding
      errors, the call throws a `JSONError` exactly when the text has no UTF-8
      bytes, and then with code 2. */
  lemma ParseObjectErrorClassified<T>(utf8Data: string -> Option<Bytes>,
                                      decode: Bytes -> Result<T, Thrown>, text: string)
    requires forall b :: decode(b).Err? ==> decode(b).error.Decoding?
    ensures var r := ParseObject(utf8Data, decode, text);
      (r.Err? && r.error.Conversion?) <==> utf8Data(text).None?
    ensures var r := ParseObject(utf8Data, decode, text);
      r.Err? && r.error.Conversion? ==>
        r.error.e.code == 2 && r.error.e.LocalizedDescription() == r.error.e.message
  {
  }

  /** The two codes name distinct failures. */
  lemma ErrorCodesDistinct()
    ensures DataToStringFailed.code != StringToDataFailed.code
    ensures DataToStringFailed.message != StringToDataFailed.message
  {
  }
}

=== FILE: defaults.dfy ===
/** The `Default<T: DefaultValue>` property wrapper and its registry of default
    kinds (fastjson_swift/Codable/Default.swift). A wrapper decodes to the value
    present when it decodes as the kind's type, and to the kind's fixed default
    otherwise; it never fails. */
module Defaults {
  import opened Wrappers
  import opened JsonValue
  import opened Containers

  /** The closed set of `DefaultValue` tags: `Int.Zero`, `Float.Zero`,
      `Double.Zero`, `String.Empty`, `Bool.False`, `Bool.True`. */
  datatype Kind = IntZero | FloatZero | DoubleZero | StringEmpty | BoolFalse | BoolTrue

  /** The associated type `Value` of a tag, as Swift infers it from the type of
      `defaultValue`. `Float.Zero` and `Double.Zero` declare an unannotated `0`,
      whose type is `Int`, so their `Value` is `Int` and not `Float`/`Double`. */
  function ValueType(k: Kind): PrimType {
    match k
    case IntZero => IntType
    case FloatZero => IntType
    case DoubleZero => IntType
    case StringEmpty => StringType
    case BoolFalse => BoolType
    case BoolTrue => BoolType
  }

  /** `T.defaultValue`: the fixed fallback of each tag. */
  function Registry(k: Kind): (d: Value)
    ensures HasType(d, ValueType(k))
    ensures DecodePrim(ValueType(k), ToJson(d)) == Ok(d)
  {
    match k
    case IntZero => VInt(0)
    case FloatZero => VInt(0)
    case DoubleZero => VInt(0)
    case StringEmpty => VStr("")
    case BoolFalse => VBool(false)
    case BoolTrue => VBool(true)
  }

  /** The registry table as Default.swift writes it, the `Float`/`Double` quirk included. */
  lemma RegistryTable()
    ensures Registry(IntZero) == VInt(0) && ValueType(IntZero) == IntType
    ensures Registry(FloatZero) == VInt(0) && ValueType(FloatZero) == IntType
    ensures Registry(DoubleZero) == VInt(0) && ValueType(DoubleZero) == IntType
    ensures Registry(StringEmpty) == VStr("") && ValueType(StringEmpty) == StringType
    ensures Registry(BoolFalse) == VBool(false) && ValueType(BoolFalse) == BoolType
    ensures Registry(BoolTrue) == VBool(true) && ValueType(BoolTrue) == BoolType
  {
  }

  /** A `Default<T>` value: the tag `T` and the held `wrappedValue`. */
  datatype DefaultField = DefaultField(kind: Kind, wrappedValue: Value)

  /** The held value has the tag's associated type, as Swift's type system demands. */
  predicate Valid(f: DefaultField) {
    HasType(f.wrappedValue, ValueType(f.kind))
  }

  /** The wrapper holding the tag's default. */
  function Fallback(k: Kind): DefaultField {
    DefaultField(k, Registry(k))
  }

  /** `init(wrappedValue:)`: stores the given value; the registry plays no part,
      so a value other than the default stays that value. */
  function Init(k: Kind, v: Value): (f: DefaultField)
    requires HasType(v, ValueType(k))
    ensures Valid(f) && f.kind == k
    ensures f.wrappedValue == v
    ensures v != Registry(k) ==> f != Fallback(k)
  {
    DefaultField(k, v)
  }

  /** `init(from:)`: `(try? container.decode(T.Value.self)) ?? T.defaultValue`.
      The result is either exactly what the JSON value holds or the default. */
  function DecodeSingle(k: Kind, j: Json): (f: DefaultField)
    ensures Valid(f) && f.kind == k
    ensures f.wrappedValue == Registry(k) || ToJson(f.wrappedValue) == j
  {
    var decoded := DecodePrim(ValueType(k), j).ToOption();
    DefaultField(k, decoded.GetOr(Registry(k)))
  }

  /** Single-value decode of what was encoded returns the held value. */
  lemma DecodeSingleRoundTrip(f: DefaultField)
    requires Valid(f)
    ensures DecodeSingle(f.kind, EncodeSingle(f)) == f
  {
    DecodePrimOfToJson(f.wrappedValue, ValueType(f.kind));
  }

  /** A JSON value that is no encoding of a value of the tag's type (null, the
      wrong shape, an out-of-range number) decodes to the default. */
  lemma DecodeSingleFallsBack(k: Kind, j: Json)
    requires forall v :: HasType(v, ValueType(k)) ==> ToJson(v) != j
    ensures DecodeSingle(k, j) == Fallback(k)
  {
    DecodePrimSucceedsIff(ValueType(k), j);
  }

  /** `encode(to:)`: the held value written through a single-value container.
      It is never null, and single-value decode reads it back. */
  function EncodeSingle(f: DefaultField): (e: Json)
    ensures e != JNull
    ensures Valid(f) ==> DecodePrim(ValueType(f.kind), e) == Ok(f.wrappedValue)
    ensures Valid(f) ==> DecodeSingle(f.kind, e) == f
  {
    ToJson(f.wrappedValue)
  }

  /** Keyed `decode(Default<T>.Type, forKey:)`:
      `try decodeIfPresent(type, forKey: key) ?? Default(wrappedValue: T.defaultValue)`.
      It never throws, in either build: a missing or null key gives the default,
      a present value is decoded by `init(from:)`. */
  function KeyedDecode(mode: BuildMode, k: Kind, obj: map<string, Json>,
                       key: string): (r: Result<DefaultField, DecodingError>)
    ensures r.Ok? && Valid(r.value) && r.value.kind == k
    ensures key !in obj ==> r.value == Fallback(k)
    ensures key in obj ==> r.value == DecodeSingle(k, obj[key])
  {
    var present := DecodeIfPresent(mode, obj, key, j => Ok(DecodeSingle(k, j)));
    present.MapValue((o: Option<DefaultField>) => o.GetOr(Fallback(k)))
  }

  /** Keyed `encode(_:forKey:)`: `encodeIfPresent` of a non-optional value, so the
      key is always written, and no other key changes. */
  function KeyedEncode(obj: map<string, Json>, key: string, f: DefaultField): (m: map<string, Json>)
    ensures m.Keys == obj.Keys + {key}
    ensures m[key] == EncodeSingle(f)
    ensures forall other :: other in obj && other != key ==> m[other] == obj[other]
  {
    obj[key := EncodeSingle(f)]
  }

  /** A missing key and a null value decode alike, to the default. */
  lemma KeyedAbsentOrNull(mode: BuildMode, k: Kind, obj: map<string, Json>, key: string)
    requires key !in obj || obj[key] == JNull
    ensures KeyedDecode(mode, k, obj, key) == Ok(Fallback(k))
  {
    if key in obj {
      DecodeSingleFallsBack(k, JNull);
    }
  }

  /** A present value of the wrong shape also decodes to the default, never to an error. */
  lemma KeyedWrongShape(mode: BuildMode, k: Kind, obj: map<string, Json>, key: string)
    requires key in obj
    requires DecodePrim(ValueType(k), obj[key]).Err?
    ensures KeyedDecode(mode, k, obj, key) == Ok(Fallback(k))
  {
  }

  /** A present value that decodes as the tag's type is kept exactly. */
  lemma KeyedPresent(mode: BuildMode, k: Kind, obj: map<string, Json>, key: string, v: Value)
    requires HasType(v, ValueType(k))
    requires key in obj && obj[key] == ToJson(v)
    ensures KeyedDecode(mode, k, obj, key) == Ok(Init(k, v))
  {
    DecodeSingleRoundTrip(Init(k, v));
  }

  /** The build-mode switch does not change what a `Default` field decodes to. */
  lemma KeyedDecodeModeIndependent(k: Kind, obj: map<string, Json>, key: string)
    ensures KeyedDecode(Debug, k, obj, key) == KeyedDecode(Release, k, obj, key)
  {
  }

  /** Keyed encode then keyed decode of the same key returns the held value. */
  lemma KeyedRoundTrip(mode: BuildMode, obj: map<string, Json>, key: string, f: DefaultField)
    requires Valid(f)
    ensures KeyedDecode(mode, f.kind, KeyedEncode(obj, key, f), key) == Ok(f)
  {
    DecodeSingleRoundTrip(f);
  }

  /** A wrapper built directly survives keyed encode and decode unchanged. */
  lemma InitRoundTrip(mode: BuildMode, k: Kind, v: Value, obj: map<string, Json>, key: string)
    requires HasType(v, ValueType(k))
    ensures KeyedDecode(mode, k, KeyedEncode(obj, key, Init(k, v)), key).value.wrappedValue == v
  {
    KeyedRoundTrip(mode, obj, key, Init(k, v));
  }
}

=== FILE: documents.dfy ===
/** The four public entry points of Codable/JSON.swift instantiated with the
    record codec: a record, or an array of records, to text and back. The JSON
    writer (pretty-printing included), the JSON tokenizer and the UTF-8
    conversions are the collaborators in `Backend`. */
module Documents {
  import opened Wrappers
  import opened JsonValue
  import opened Containers
  import opened Records
  import opened Conversion

  /** The library primitives the entry points stand on. */
  datatype Backend = Backend(
    serialize: Json -> Bytes,           // JSONEncoder's writer, `.prettyPrinted`
    parse: Bytes -> Option<Json>,       // JSONDecoder's tokenizer; None for bad syntax
    utf8String: Bytes -> Option<string>,  // `String(data:encoding: .utf8)`
    utf8Data: string -> Option<Bytes>     // `String.data(using: .utf8)`
  )

  /** The collaborators behave as a correct library does: the tokenizer reads back
      what the writer wrote, and text read from bytes converts back to those bytes. */
  ghost predicate Faithful(b: Backend) {
    && (forall j :: b.parse(b.serialize(j)) == Some(j))
    && (forall bytes :: b.utf8String(bytes).Some? ==> b.utf8Data(b.utf8String(bytes).value) == Some(bytes))
  }

  /** Decodes an array of records through an unkeyed container, in order; the
      first element that fails makes the whole array fail. */
  function DecodeRecordList(mode: BuildMode, schema: Schema,
                            items: seq<Json>): (r: Result<seq<Record>, DecodingError>)
    ensures r.Ok? <==> forall i :: 0 <= i < |items| ==> DecodeRecord(mode, schema, items[i]).Ok?
    ensures r.Ok? ==> |r.value| == |items|
    ensures r.Ok? ==> forall i :: 0 <= i < |items| ==> DecodeRecord(mode, schema, items[i]) == Ok(r.value[i])
    ensures r.Err? ==> exists i ::
      && 0 <= i < |items|
      && DecodeRecord(mode, schema, items[i]) == Err(r.error)
      && forall k :: 0 <= k < i ==> DecodeRecord(mode, schema, items[k]).Ok?
    decreases |items|
  {
    if |items| == 0 then Ok([])
    else
      match DecodeRecord(mode, schema, items[0])
      case Err(e) => Err(e)
      case Ok(rec) =>
        match DecodeRecordList(mode, schema, items[1..])
        case Err(e) => Err(e)
        case Ok(rest) => Ok([rec] + rest)
  }

  /** Encodes an array of records as a JSON array, element by element. */
  function EncodeRecordList(schema: Schema, recs: seq<Record>): (j: Json)
    requires DistinctKeys(schema)
    requires forall i :: 0 <= i < |recs| ==> Conforms(schema, recs[i])
    ensures j.JArr? && |j.items| == |recs|
    ensures forall i :: 0 <= i < |recs| ==> Conforms(schema, recs[i]) && j.items[i] == EncodeRecord(schema, recs[i])
  {
    JArr(seq(|recs|, i requires 0 <= i < |recs| => assert Conforms(schema, recs[i]); EncodeRecord(schema, recs[i])))
  }

  /** `JSONEncoder().encode(record)`: a record whose shape does not fit the
      schema cannot be written. */
  function EncodeDocument(b: Backend, schema: Schema, rec: Record): (r: Result<Bytes, Thrown>)
    ensures r.Ok? <==> Conforms(schema, rec) && DistinctKeys(schema)
    ensures r.Ok? ==> r.value == b.serialize(EncodeRecord(schema, rec))
    ensures r.Err? ==> r.error.Encoding?
  {
    if Conforms(schema, rec) && DistinctKeys(schema) then Ok(b.serialize(EncodeRecord(schema, rec)))
    else Err(Encoding("record does not fit its schema"))
  }

  /** `JSONEncoder().encode(records)` for an array. */
  function EncodeDocumentList(b: Backend, schema: Schema, recs: seq<Record>): (r: Result<Bytes, Thrown>)
    ensures r.Ok? <==> DistinctKeys(schema) && forall i :: 0 <= i < |recs| ==> Conforms(schema, recs[i])
    ensures r.Ok? ==> r.value == b.serialize(EncodeRecordList(schema, recs))
    ensures r.Err? ==> r.error.Encoding?
  {
    if DistinctKeys(schema) && forall i :: 0 <= i < |recs| ==> Conforms(schema, recs[i])
    then Ok(b.serialize(EncodeRecordList(schema, recs)))
    else Err(Encoding("record does not fit its schema"))
  }

  /** `JSONDecoder().decode(Record.self, from:)`: bad syntax is dataCorrupted,
      otherwise the record decode's result. */
  function DecodeDocument(mode: BuildMode, b: Backend, schema: Schema,
                          bytes: Bytes): (r: Result<Record, Thrown>)
    ensures b.parse(bytes).None? ==> r == Err(Decoding(DataCorrupted))
    ensures r.Ok? <==> b.parse(bytes).Some? && DecodeRecord(mode, schema, b.parse(bytes).value).Ok?
    ensures r.Ok? ==> DecodeRecord(mode, schema, b.parse(bytes).value) == Ok(r.value)
    ensures r.Err? ==> r.error.Decoding?
    ensures b.parse(bytes).Some? && DecodeRecord(mode, schema, b.parse(bytes).value).Err? ==>
      r == Err(Decoding(DecodeRecord(mode, schema, b.parse(bytes).value).error))
  {
    match b.parse(bytes)
    case None => Err(Decoding(DataCorrupted))
    case Some(j) => DecodeRecord(mode, schema, j).MapError(e => Decoding(e))
  }

  /** `JSONDecoder().decode([Record].self, from:)`: the top level must be an
      array; an unkeyed container asked of null is valueNotFound. */
  function DecodeDocumentList(mode: BuildMode, b: Backend, schema: Schema,
                              bytes: Bytes): (r: Result<seq<Record>, Thrown>)
    ensures b.parse(bytes).None? ==> r == Err(Decoding(DataCorrupted))
    ensures b.parse(bytes) == Some(JNull) ==> r == Err(Decoding(ValueNotFound))
    ensures b.parse(bytes).Some? && !b.parse(bytes).value.JArr? && b.parse(bytes).value != JNull ==>
      r == Err(Decoding(TypeMismatch))
    ensures r.Ok? <==>
      && b.parse(bytes).Some? && b.parse(bytes).value.JArr?
      && DecodeRecordList(mode, schema, b.parse(bytes).value.items).Ok?
    ensures r.Ok? ==> DecodeRecordList(mode, schema, b.parse(bytes).value.items) == Ok(r.value)
    ensures r.Err? ==> r.error.Decoding?
  {
    match b.parse(bytes)
    case None => Err(Decoding(DataCorrupted))
    case Some(JArr(items)) => DecodeRecordList(mode, schema, items).MapError(e => Decoding(e))
    case Some(JNull) => Err(Decoding(ValueNotFound))
    case Some(_) => Err(Decoding(TypeMismatch))
  }

  /** `JSON.toJSONString(record)`. */
  function EncodeToText(b: Backend, schema: Schema, rec: Record): (r: Result<string, Thrown>)
    requires Conforms(schema, rec) && DistinctKeys(schema)
    ensures r.Ok? <==> b.utf8String(b.serialize(EncodeRecord(schema, rec))).Some?
    ensures r.Ok? ==> b.utf8String(b.serialize(EncodeRecord(schema, rec))) == Some(r.value)
    ensures r.Err? ==> r.error == Conversion(DataToStringFailed)
  {
    ToJSONString(rec' => EncodeDocument(b, schema, rec'), b.utf8String, rec)
  }

  /** `JSON.toJSONString(records)`. */
  function EncodeListToText(b: Backend, schema: Schema, recs: seq<Record>): (r: Result<string, Thrown>)
    requires DistinctKeys(schema)
    requires forall i :: 0 <= i < |recs| ==> Conforms(schema, recs[i])
    ensures r.Ok? <==> b.utf8String(b.serialize(EncodeRecordList(schema, recs))).Some?
    ensures r.Ok? ==> b.utf8String(b.serialize(EncodeRecordList(schema, recs))) == Some(r.value)
    ensures r.Err? ==> r.error == Conversion(DataToStringFailed)
  {
    ToJSONStringArray(rs => EncodeDocumentList(b, schema, rs), b.utf8String, recs)
  }

  /** `JSON.parseObject(text, type: Record.self)`. */
  function DecodeFromText(mode: BuildMode, b: Backend, schema: Schema,
                          text: string): (r: Result<Record, Thrown>)
    ensures r.Ok? ==> Conforms(schema, r.value)
    ensures r.Ok? ==> exists bytes :: b.utf8Data(text) == Some(bytes) && b.parse(bytes).Some?
    ensures b.utf8Data(text).None? ==> r == Err(Conversion(StringToDataFailed))
  {
    ParseObject(b.utf8Data, bytes => DecodeDocument(mode, b, schema, bytes), text)
  }

  /** `JSON.parseArray(text, type: [Record].self)`. */
  function DecodeListFromText(mode: BuildMode, b: Backend, schema: Schema,
                              text: string): (r: Result<seq<Record>, Thrown>)
    ensures r.Ok? ==> forall i :: 0 <= i < |r.value| ==> Conforms(schema, r.value[i])
    ensures b.utf8Data(text).None? ==> r == Err(Conversion(StringToDataFailed))
  {
    ParseArray(b.utf8Data, bytes => DecodeDocumentList(mode, b, schema, bytes), text)
  }

  /** Round trip through text: whenever a record converts to text, parsing that
      text gives the record back. */
  lemma TextRoundTrip(mode: BuildMode, b: Backend, schema: Schema, rec: Record, text: string)
    requires Faithful(b)
    requires Conforms(schema, rec) && DistinctKeys(schema)
    requires EncodeToText(b, schema, rec) == Ok(text)
    ensures DecodeFromText(mode, b, schema, text) == Ok(rec)
  {
    var j := EncodeRecord(schema, rec);
    var bytes := b.serialize(j);
    assert b.utf8String(bytes) == Some(text);
    assert b.utf8Data(text) == Some(bytes);
    assert b.parse(bytes) == Some(j);
    RecordRoundTrip(mode, schema, rec);
  }

  /** Round trip through text for an array of records. */
  lemma ListTextRoundTrip(mode: BuildMode, b: Backend, schema: Schema, recs: seq<Record>, text: string)
    requires Faithful(b)
    requires DistinctKeys(schema)
    requires forall i :: 0 <= i < |recs| ==> Conforms(schema, recs[i])
    requires EncodeListToText(b, schema, recs) == Ok(text)
    ensures DecodeListFromText(mode, b, schema, text) == Ok(recs)
  {
    var j := EncodeRecordList(schema, recs);
    var bytes := b.serialize(j);
    assert b.utf8String(bytes) == Some(text);
    assert b.utf8Data(text) == Some(bytes);
    assert b.parse(bytes) == Some(j);
    forall i | 0 <= i < |recs|
      ensures DecodeRecord(mode, schema, j.items[i]) == Ok(recs[i])
    {
      RecordRoundTrip(mode, schema, recs[i]);
    }
    var r := DecodeRecordList(mode, schema, j.items);
    assert r.Ok? && r.value == recs;
  }

  /** Text that is not valid JSON is an error, never a partly filled record. */
  lemma BadSyntaxIsError(mode: BuildMode, b: Backend, schema: Schema, text: string)
    requires b.utf8Data(text).Some? && b.parse(b.utf8Data(text).value).None?
    ensures DecodeFromText(mode, b, schema, text) == Err(Decoding(DataCorrupted))
  {
  }

  /** A document that is `null` where a record, or an array of records, is
      expected throws valueNotFound, not typeMismatch. */
  lemma NullDocumentIsValueNotFound(mode: BuildMode, b: Backend, schema: Schema, text: string)
    requires b.utf8Data(text).Some? && b.parse(b.utf8Data(text).value) == Some(JNull)
    ensures DecodeFromText(mode, b, schema, text) == Err(Decoding(ValueNotFound))
    ensures DecodeListFromText(mode, b, schema, text) == Err(Decoding(ValueNotFound))
  {
  }

  /** Default substitution end to end: a record type whose fields are all
      resilient parses from any text that holds a JSON object. */
  lemma ResilientDocumentParses(mode: BuildMode, b: Backend, schema: Schema, text: string, obj: map<string, Json>)
    requires forall i :: 0 <= i < |schema| ==> schema[i].kind.Resilient?
    requires b.utf8Data(text).Some? && b.parse(b.utf8Data(text).value) == Some(JObj(obj))
    ensures DecodeFromText(mode, b, schema, text).Ok?
  {
    ResilientRecordNeverFails(mode, schema, obj);
  }

  /** Non-resilient propagation end to end: a plain field missing from the
      document makes `parseObject` throw a decoding error (keyNotFound for that
      field, or the error of an earlier field that failed first). */
  lemma PlainFieldMissingDocumentFails(mode: BuildMode, b: Backend, schema: Schema, text: string,
                                       obj: map<string, Json>, i: nat)
    requires i < |schema| && schema[i].kind.Plain? && schema[i].key !in obj
    requires b.utf8Data(text).Some? && b.parse(b.utf8Data(text).value) == Some(JObj(obj))
    ensures DecodeFromText(mode, b, schema, text).Err?
    ensures DecodeFromText(mode, b, schema, text).error.Decoding?
  {
    PlainFieldMissingFails(mode, schema, obj, i);
  }

  /** The `ViewController` scenario: `{"ndame": "Andy"}` parsed as `Body` gives
      `name == true`, with no error, whatever bytes carry the text. */
  lemma ScenarioParseBody(mode: BuildMode, b: Backend, text: string)
    requires b.utf8Data(text).Some?
    requires b.parse(b.utf8Data(text).value) == Some(JObj(map["ndame" := JStr("Andy")]))
    ensures DecodeFromText(mode, b, BodySchema, text) == Ok([VBool(true)])
  {
    ScenarioMisspelledKey(mode);
  }
}

=== FILE: json.dfy ===
/** The JSON value tree that Foundation's JSONDecoder hands to Codable, and the
    primitive decoding and encoding it applies to one value. The tokenizer and
    the writer that turn this tree into bytes are not part of this module. */
module JsonValue {
  import opened Wrappers

  /** A JSON value. Numbers are integers only: fractional numbers are not modelled. */
  datatype Json =
    | JNull
    | JBool(b: bool)
    | JInt(n: int)
    | JStr(s: string)
    | JObj(fields: map<string, Json>)
    | JArr(items: seq<Json>)

  /** The Swift primitive types a field holds in this model. */
  datatype PrimType = IntType | StringType | BoolType

  /** A Swift primitive value. */
  datatype Value = VInt(i: int) | VStr(s: string) | VBool(b: bool)

  /** The `DecodingError` cases JSONDecoder raises for one keyed or single value. */
  datatype DecodingError =
    | KeyNotFound(key: string)
    | ValueNotFound
    | TypeMismatch
    | DataCorrupted

  /** Swift's `Int` is 64 bits wide. */
  const IntMin: int := -0x8000_0000_0000_0000
  const IntMax: int := 0x7FFF_FFFF_FFFF_FFFF

  predicate FitsInt(n: int) {
    IntMin <= n <= IntMax
  }

  /** `v` is a value Swift can store in a variable of type `t`. */
  predicate HasType(v: Value, t: PrimType) {
    match t
    case IntType => v.VInt? && FitsInt(v.i)
    case StringType => v.VStr?
    case BoolType => v.VBool?
  }

  /** What JSONEncoder writes for a primitive value. */
  function ToJson(v: Value): Json {
    match v
    case VInt(i) => JInt(i)
    case VStr(s) => JStr(s)
    case VBool(b) => JBool(b)
  }

  /** `decode(Int.self)`: null is valueNotFound, a number outside the 64-bit
      range is dataCorrupted, any other shape (a Bool included) is typeMismatch. */
  function DecodeInt(j: Json): (r: Result<int, DecodingError>)
    ensures r.Ok? <==> j.JInt? && FitsInt(j.n)
    ensures r.Ok? ==> FitsInt(r.value) && j == JInt(r.value)
    ensures r.Err? ==> (r.error == ValueNotFound <==> j == JNull)
  {
    match j
    case JNull => Err(ValueNotFound)
    case JInt(n) => if FitsInt(n) then Ok(n) else Err(DataCorrupted)
    case _ => Err(TypeMismatch)
  }

  /** `decode(String.self)`: only a JSON string decodes; no coercion from numbers. */
  function DecodeString(j: Json): (r: Result<string, DecodingError>)
    ensures r.Ok? <==> j.JStr?
    ensures r.Ok? ==> j == JStr(r.value)
    ensures r.Err? ==> (r.error == ValueNotFound <==> j == JNull)
  {
    match j
    case JNull => Err(ValueNotFound)
    case JStr(s) => Ok(s)
    case _ => Err(TypeMismatch)
  }

  /** `decode(Bool.self)`: only a JSON boolean decodes; the numbers 0 and 1 do not. */
  function DecodeBool(j: Json): (r: Result<bool, DecodingError>)
    ensures r.Ok? <==> j.JBool?
    ensures r.Ok? ==> j == JBool(r.value)
    ensures r.Err? ==> (r.error == ValueNotFound <==> j == JNull)
  {
    match j
    case JNull => Err(ValueNotFound)
    case JBool(b) => Ok(b)
    case _ => Err(TypeMismatch)
  }

  /** Single-value decode of `j` as the primitive type `t`. */
  function DecodePrim(t: PrimType, j: Json): (r: Result<Value, DecodingError>)
    ensures r.Ok? ==> HasType(r.value, t) && ToJson(r.value) == j
    ensures r.Err? ==> (r.error == ValueNotFound <==> j == JNull)
  {
    match t
    case IntType => DecodeInt(j).MapValue(i => VInt(i))
    case StringType => DecodeString(j).MapValue(s => VStr(s))
    case BoolType => DecodeBool(j).MapValue(b => VBool(b))
  }

  /** Decoding what the encoder wrote gives back the value, for every value of the type. */
  lemma DecodePrimOfToJson(v: Value, t: PrimType)
    requires HasType(v, t)
    ensures DecodePrim(t, ToJson(v)) == Ok(v)
  {
  }

  /** A JSON value decodes as `t` exactly when it is the encoding of some value of type `t`. */
  lemma DecodePrimSucceedsIff(t: PrimType, j: Json)
    ensures DecodePrim(t, j).Ok? <==> exists v :: HasType(v, t) && ToJson(v) == j
  {
    if v :| HasType(v, t) && ToJson(v) == j {
      DecodePrimOfToJson(v, t);
    }
  }
}

=== FILE: records.dfy ===
/** Records built from plain and resilient fields. Swift synthesises a record's
    `Codable` conformance from its property declarations; here each record type
    is an explicit schema: an ordered list of fields, each either plain (a
    primitive decoded with the stock keyed `decode`, whose errors are thrown) or
    `@Default<K>`-wrapped (decoded by `KeyedDecode`, which never throws). */
module Records {
  import opened Wrappers
  import opened JsonValue
  import opened Containers
  import opened Defaults

  datatype FieldKind = Plain(t: PrimType) | Resilient(k: Kind)

  /** One stored property: its coding key and how it is declared. */
  datatype Field = Field(key: string, kind: FieldKind)

  type Schema = seq<Field>

  /** A record value: one primitive per field, in declaration order. */
  type Record = seq<Value>

  /** The Swift type of the stored value of a field. */
  function FieldType(fk: FieldKind): PrimType {
    match fk
    case Plain(t) => t
    case Resilient(k) => ValueType(k)
  }

  /** `rec` is a value of the record type that `schema` describes. */
  predicate Conforms(schema: Schema, rec: Record) {
    && |rec| == |schema|
    && forall i :: 0 <= i < |schema| ==> HasType(rec[i], FieldType(schema[i].kind))
  }

  /** Coding keys are unique, as Swift's synthesised `CodingKeys` enum requires. */
  predicate DistinctKeys(schema: Schema) {
    forall i, j :: 0 <= i < j < |schema| ==> schema[i].key != schema[j].key
  }

  /** Decodes one field from the record's keyed container. */
  function DecodeField(mode: BuildMode, obj: map<string, Json>, f: Field): (r: Result<Value, DecodingError>)
    ensures r.Ok? ==> HasType(r.value, FieldType(f.kind))
    ensures f.kind.Resilient? ==> r.Ok?
    ensures f.kind.Plain? ==> (r.Ok? <==> f.key in obj && DecodePrim(f.kind.t, obj[f.key]).Ok?)
    ensures f.kind.Plain? && r.Ok? ==> obj[f.key] == ToJson(r.value)
  {
    match f.kind
    case Plain(t) => DecodeForKey(obj, f.key, j => DecodePrim(t, j))
    case Resilient(k) => KeyedDecode(mode, k, obj, f.key).MapValue((d: DefaultField) => d.wrappedValue)
  }

  /** Decodes the fields in declaration order; the first error is thrown. */
  function DecodeFields(mode: BuildMode, obj: map<string, Json>, schema: Schema): (r: Result<Record, DecodingError>)
    ensures r.Ok? <==> forall i :: 0 <= i < |schema| ==> DecodeField(mode, obj, schema[i]).Ok?
    ensures r.Ok? ==> |r.value| == |schema|
    ensures r.Ok? ==> forall i :: 0 <= i < |schema| ==> DecodeField(mode, obj, schema[i]) == Ok(r.value[i])
    ensures r.Err? ==> exists i ::
      && 0 <= i < |schema|
      && DecodeField(mode, obj, schema[i]) == Err(r.error)
      && forall k :: 0 <= k < i ==> DecodeField(mode, obj, schema[k]).Ok?
    decreases |schema|
  {
    if |schema| == 0 then Ok([])
    else
      match DecodeField(mode, obj, schema[0])
      case Err(e) => Err(e)
      case Ok(v) =>
        match DecodeFields(mode, obj, schema[1..])
        case Err(e) => Err(e)
        case Ok(rest) => Ok([v] + rest)
  }

  /** `init(from:)` of a record: the JSON value must be an object. Asking for a
      keyed container on null is valueNotFound; on any other non-object it is
      typeMismatch. */
  function DecodeRecord(mode: BuildMode, schema: Schema, j: Json): (r: Result<Record, DecodingError>)
    ensures r.Ok? ==> j.JObj? && Conforms(schema, r.value)
    ensures j.JObj? ==>
      (r.Ok? <==> forall i :: 0 <= i < |schema| ==> DecodeField(mode, j.fields, schema[i]).Ok?)
    ensures r.Ok? ==> forall i :: 0 <= i < |schema| ==> DecodeField(mode, j.fields, schema[i]) == Ok(r.value[i])
    ensures j.JObj? && r.Err? ==> exists i ::
      && 0 <= i < |schema|
      && DecodeField(mode, j.fields, schema[i]) == Err(r.error)
      && forall k :: 0 <= k < i ==> DecodeField(mode, j.fields, schema[k]).Ok?
    ensures j == JNull ==> r == Err(ValueNotFound)
    ensures !j.JObj? && j != JNull ==> r == Err(TypeMismatch)
  {
    match j
    case JObj(fields) => DecodeFields(mode, fields, schema)
    case JNull => Err(ValueNotFound)
    case _ => Err(TypeMismatch)
  }

  /** Encodes one field into the keyed container: a plain field with the stock
      `encode(_:forKey:)`, a resilient one with `KeyedEncode`. Both write the
      value at the key and touch no other key. */
  function EncodeField(obj: map<string, Json>, f: Field, v: Value): (m: map<string, Json>)
    ensures m.Keys == obj.Keys + {f.key}
    ensures m[f.key] == ToJson(v)
    ensures forall other :: other in obj && other != f.key ==> m[other] == obj[other]
  {
    match f.kind
    case Plain(_) => obj[f.key := ToJson(v)]
    case Resilient(k) => KeyedEncode(obj, f.key, DefaultField(k, v))
  }

  /** The coding keys of a schema. */
  function Keys(schema: Schema): set<string> {
    set i | 0 <= i < |schema| :: schema[i].key
  }

  /** Encodes the fields in declaration order, each into the container the
      previous ones left. */
  function EncodeFields(obj: map<string, Json>, schema: Schema, rec: Record): (m: map<string, Json>)
    requires |rec| == |schema|
    requires DistinctKeys(schema)
    ensures m.Keys == obj.Keys + Keys(schema)
    ensures forall i :: 0 <= i < |schema| ==> m[schema[i].key] == ToJson(rec[i])
    ensures forall key :: key in obj && key !in Keys(schema) ==> m[key] == obj[key]
    decreases |schema|
  {
    if |schema| == 0 then obj
    else
      var m := EncodeFields(EncodeField(obj, schema[0], rec[0]), schema[1..], rec[1..]);
      assert forall i :: 1 <= i < |schema| ==> schema[i] == schema[1..][i - 1];
      assert Keys(schema) == {schema[0].key} + Keys(schema[1..]);
      m
  }

  /** `encode(to:)` of a record: a fresh JSON object holding every field. */
  function EncodeRecord(schema: Schema, rec: Record): (j: Json)
    requires |rec| == |schema|
    requires DistinctKeys(schema)
    ensures j.JObj? && j.fields.Keys == Keys(schema)
    ensures forall i :: 0 <= i < |schema| ==> j.fields[schema[i].key] == ToJson(rec[i])
  {
    JObj(EncodeFields(map[], schema, rec))
  }

  /** A field decodes to the value that was encoded at its key. */
  lemma DecodeFieldOfEncoded(mode: BuildMode, obj: map<string, Json>, f: Field, v: Value)
    requires HasType(v, FieldType(f.kind))
    requires f.key in obj && obj[f.key] == ToJson(v)
    ensures DecodeField(mode, obj, f) == Ok(v)
  {
    match f.kind
    case Plain(t) => DecodePrimOfToJson(v, t);
    case Resilient(k) => KeyedPresent(mode, k, obj, f.key, v);
  }

  /** Round trip: decoding an encoded record gives the record back, in either build. */
  lemma RecordRoundTrip(mode: BuildMode, schema: Schema, rec: Record)
    requires Conforms(schema, rec)
    requires DistinctKeys(schema)
    ensures DecodeRecord(mode, schema, EncodeRecord(schema, rec)) == Ok(rec)
  {
    var obj := EncodeRecord(schema, rec).fields;
    forall i | 0 <= i < |schema|
      ensures DecodeField(mode, obj, schema[i]) == Ok(rec[i])
    {
      DecodeFieldOfEncoded(mode, obj, schema[i], rec[i]);
    }
    var r := DecodeFields(mode, obj, schema);
    assert r.Ok?;
    assert r.value == rec;
  }

  /** Idempotence: re-encoding a decoded record and decoding again gives the
      same record as the first decode. */
  lemma DecodeEncodeDecode(mode: BuildMode, schema: Schema, j: Json)
    requires DistinctKeys(schema)
    requires DecodeRecord(mode, schema, j).Ok?
    ensures DecodeRecord(mode, schema, EncodeRecord(schema, DecodeRecord(mode, schema, j).value))
         == DecodeRecord(mode, schema, j)
  {
    RecordRoundTrip(mode, schema, DecodeRecord(mode, schema, j).value);
  }

  /** A record whose fields are all resilient decodes from every JSON object. */
  lemma ResilientRecordNeverFails(mode: BuildMode, schema: Schema, obj: map<string, Json>)
    requires forall i :: 0 <= i < |schema| ==> schema[i].kind.Resilient?
    ensures DecodeRecord(mode, schema, JObj(obj)).Ok?
  {
  }

  /** A record decodes exactly when each plain field is present and decodes as
      its type; resilient fields never stand in the way. */
  lemma RecordDecodesIff(mode: BuildMode, schema: Schema, obj: map<string, Json>)
    ensures DecodeRecord(mode, schema, JObj(obj)).Ok? <==>
      forall i :: 0 <= i < |schema| && schema[i].kind.Plain? ==>
        schema[i].key in obj && DecodePrim(schema[i].kind.t, obj[schema[i].key]).Ok?
  {
  }

  /** Default substitution: a resilient field whose key is missing, null, or holds
      a value that does not decode as the field's type, takes the registry default. */
  lemma ResilientFieldTakesDefault(mode: BuildMode, schema: Schema, obj: map<string, Json>, i: nat)
    requires i < |schema| && schema[i].kind.Resilient?
    requires var key := schema[i].key;
      key !in obj || DecodePrim(ValueType(schema[i].kind.k), obj[key]).Err?
    requires DecodeRecord(mode, schema, JObj(obj)).Ok?
    ensures DecodeRecord(mode, schema, JObj(obj)).value[i] == Registry(schema[i].kind.k)
  {
  }

  /** Non-resilient propagation: a plain field whose key is missing makes the
      whole record fail, with no partial result. */
  lemma PlainFieldMissingFails(mode: BuildMode, schema: Schema, obj: map<string, Json>, i: nat)
    requires i < |schema| && schema[i].kind.Plain?
    requires schema[i].key !in obj
    ensures DecodeRecord(mode, schema, JObj(obj)).Err?
  {
    assert DecodeField(mode, obj, schema[i]).Err?;
  }

  /** Non-resilient propagation: a plain field holding the wrong shape makes the
      whole record fail. */
  lemma PlainFieldWrongShapeFails(mode: BuildMode, schema: Schema, obj: map<string, Json>, i: nat)
    requires i < |schema| && schema[i].kind.Plain?
    requires schema[i].key in obj && DecodePrim(schema[i].kind.t, obj[schema[i].key]).Err?
    ensures DecodeRecord(mode, schema, JObj(obj)).Err?
  {
    assert DecodeField(mode, obj, schema[i]).Err?;
  }

  // ----- Scenarios -----

  /** A one-field record decodes to what its field decodes to. */
  lemma SingleFieldRecord(mode: BuildMode, f: Field, obj: map<string, Json>, v: Value)
    requires DecodeField(mode, obj, f) == Ok(v)
    ensures DecodeRecord(mode, [f], JObj(obj)) == Ok([v])
  {
    var r := DecodeFields(mode, obj, [f]);
    assert [f][0] == f;
    assert r.Ok? && |r.value| == 1 && r.value[0] == v;
    assert r.value == [v];
    assert DecodeRecord(mode, [f], JObj(obj)) == r;
  }

  /** `struct Body { @Default<Bool.True> var name: Bool }` */
  const BodySchema: Schema := [Field("name", Resilient(BoolTrue))]

  /** Decoding `{"ndame": "Andy"}` as `Body`: the key `name` is absent, so the
      field takes `Bool.True`'s default and the decode succeeds. */
  lemma ScenarioMisspelledKey(mode: BuildMode)
    ensures DecodeRecord(mode, BodySchema, JObj(map["ndame" := JStr("Andy")])) == Ok([VBool(true)])
  {
    var obj := map["ndame" := JStr("Andy")];
    KeyedAbsentOrNull(mode, BoolTrue, obj, "name");
    SingleFieldRecord(mode, BodySchema[0], obj, VBool(true));
  }

  const CountSchema: Schema := [Field("count", Resilient(IntZero))]

  /** `{"count": "oops"}` with `@Default<Int.Zero> var count` gives 0. */
  lemma ScenarioWrongShape(mode: BuildMode)
    ensures DecodeRecord(mode, CountSchema, JObj(map["count" := JStr("oops")])) == Ok([VInt(0)])
  {
    var obj := map["count" := JStr("oops")];
    KeyedWrongShape(mode, IntZero, obj, "count");
    SingleFieldRecord(mode, CountSchema[0], obj, VInt(0));
  }

  /** `{"count": 42}` with the same field gives 42. */
  lemma ScenarioPresent(mode: BuildMode)
    ensures DecodeRecord(mode, CountSchema, JObj(map["count" := JInt(42)])) == Ok([VInt(42)])
  {
    var obj := map["count" := JInt(42)];
    KeyedPresent(mode, IntZero, obj, "count", VInt(42));
    SingleFieldRecord(mode, CountSchema[0], obj, VInt(42));
  }

  /** A number beyond 64 bits does not fit in `Int`, so the field gives 0. */
  lemma ScenarioOverflow(mode: BuildMode)
    ensures DecodeRecord(mode, CountSchema, JObj(map["count" := JInt(IntMax + 1)])) == Ok([VInt(0)])
  {
    var obj := map["count" := JInt(IntMax + 1)];
    KeyedWrongShape(mode, IntZero, obj, "count");
    SingleFieldRecord(mode, CountSchema[0], obj, VInt(0));
  }

  /** `struct { var a: Int; var b: Int }` */
  const PairSchema: Schema := [Field("a", Plain(IntType)), Field("b", Plain(IntType))]

  /** Keys the schema does not list are ignored: `{"a": 5, "b": 7, "x": 1}` gives
      `a == 5` and `b == 7`. */
  lemma ScenarioExtraKeyIgnored(mode: BuildMode)
    ensures DecodeRecord(mode, PairSchema, JObj(map["a" := JInt(5), "b" := JInt(7), "x" := JInt(1)]))
         == Ok([VInt(5), VInt(7)])
  {
    var obj := map["a" := JInt(5), "b" := JInt(7), "x" := JInt(1)];
    var r := DecodeRecord(mode, PairSchema, JObj(obj));
    assert DecodeField(mode, obj, PairSchema[0]) == Ok(VInt(5));
    assert DecodeField(mode, obj, PairSchema[1]) == Ok(VInt(7));
    assert r.Ok? && |r.value| == 2;
    assert r.value == [VInt(5), VInt(7)];
  }

  /** The first failing field's error is the one thrown: `{"a": "x"}` decoded as
      the pair is typeMismatch for `a`, not keyNotFound for `b`. */
  lemma ScenarioFirstErrorWins(mode: BuildMode)
    ensures DecodeRecord(mode, PairSchema, JObj(map["a" := JStr("x")])) == Err(TypeMismatch)
  {
    var obj := map["a" := JStr("x")];
    assert DecodeField(mode, obj, PairSchema[0]) == Err(TypeMismatch);
  }

  /** The same document with a plain `var count: Int` is a typeMismatch error. */
  lemma ScenarioPlainWrongShape(mode: BuildMode)
    ensures DecodeRecord(mode, [Field("count", Plain(IntType))], JObj(map["count" := JStr("oops")]))
         == Err(TypeMismatch)
  {
  }
}

=== FILE: specialised.dfy ===
/** The six hand-expanded wrappers of fastjson_swift/Codable/Default.swift:
    `StringAsEmpty`, `IntAsZero`, `FloatAsZero`, `DoubleAsZero`, `BoolAsFalse`,
    `BoolAsTrue`. Each is written here as Default.swift writes it, with its own
    literal fallback. The contracts of the four `String`, `Int` and `Bool`
    wrappers tie them to `Default` of the matching tag; the `Float`/`Double`
    pair is stated against an opaque float decoder, since `Default<Float.Zero>`
    holds an `Int`. */
module Specialised {
  import opened Wrappers
  import opened JsonValue
  import opened Containers
  import opened Defaults

  // ----- StringAsEmpty: `(try? decode(String.self)) ?? ""` -----

  function StringAsEmptyDecode(j: Json): (s: string)
    ensures DecodeSingle(StringEmpty, j) == DefaultField(StringEmpty, VStr(s))
  {
    DecodeString(j).ToOption().GetOr("")
  }

  function StringAsEmptyKeyed(mode: BuildMode, obj: map<string, Json>, key: string): (r: Result<string, DecodingError>)
    ensures r.Ok? && KeyedDecode(mode, StringEmpty, obj, key) == Ok(DefaultField(StringEmpty, VStr(r.value)))
  {
    DecodeIfPresent(mode, obj, key, j => Ok(StringAsEmptyDecode(j)))
      .MapValue((o: Option<string>) => o.GetOr(""))
  }

  function StringAsEmptyEncode(obj: map<string, Json>, key: string, s: string): (m: map<string, Json>)
    ensures m == KeyedEncode(obj, key, DefaultField(StringEmpty, VStr(s)))
  {
    obj[key := JStr(s)]
  }

  // ----- IntAsZero: `(try? decode(Int.self)) ?? 0` -----

  function IntAsZeroDecode(j: Json): (i: int)
    ensures DecodeSingle(IntZero, j) == DefaultField(IntZero, VInt(i))
  {
    DecodeInt(j).ToOption().GetOr(0)
  }

  function IntAsZeroKeyed(mode: BuildMode, obj: map<string, Json>, key: string): (r: Result<int, DecodingError>)
    ensures r.Ok? && KeyedDecode(mode, IntZero, obj, key) == Ok(DefaultField(IntZero, VInt(r.value)))
  {
    DecodeIfPresent(mode, obj, key, j => Ok(IntAsZeroDecode(j)))
      .MapValue((o: Option<int>) => o.GetOr(0))
  }

  function IntAsZeroEncode(obj: map<string, Json>, key: string, i: int): (m: map<string, Json>)
    ensures m == KeyedEncode(obj, key, DefaultField(IntZero, VInt(i)))
  {
    obj[key := JInt(i)]
  }

  // ----- BoolAsFalse: `(try? decode(Bool.self)) ?? false` -----

  function BoolAsFalseDecode(j: Json): (b: bool)
    ensures DecodeSingle(BoolFalse, j) == DefaultField(BoolFalse, VBool(b))
  {
    DecodeBool(j).ToOption().GetOr(false)
  }

  function BoolAsFalseKeyed(mode: BuildMode, obj: map<string, Json>, key: string): (r: Result<bool, DecodingError>)
    ensures r.Ok? && KeyedDecode(mode, BoolFalse, obj, key) == Ok(DefaultField(BoolFalse, VBool(r.value)))
  {
    DecodeIfPresent(mode, obj, key, j => Ok(BoolAsFalseDecode(j)))
      .MapValue((o: Option<bool>) => o.GetOr(false))
  }

  function BoolAsFalseEncode(obj: map<string, Json>, key: string, b: bool): (m: map<string, Json>)
    ensures m == KeyedEncode(obj, key, DefaultField(BoolFalse, VBool(b)))
  {
    obj[key := JBool(b)]
  }

  // ----- BoolAsTrue: `(try? decode(Bool.self)) ?? true` -----

  function BoolAsTrueDecode(j: Json): (b: bool)
    ensures DecodeSingle(BoolTrue, j) == DefaultField(BoolTrue, VBool(b))
  {
    DecodeBool(j).ToOption().GetOr(true)
  }

  function BoolAsTrueKeyed(mode: BuildMode, obj: map<string, Json>, key: string): (r: Result<bool, DecodingError>)
    ensures r.Ok? && KeyedDecode(mode, BoolTrue, obj, key) == Ok(DefaultField(BoolTrue, VBool(r.value)))
  {
    DecodeIfPresent(mode, obj, key, j => Ok(BoolAsTrueDecode(j)))
      .MapValue((o: Option<bool>) => o.GetOr(true))
  }

  function BoolAsTrueEncode(obj: map<string, Json>, key: string, b: bool): (m: map<string, Json>)
    ensures m == KeyedEncode(obj, key, DefaultField(BoolTrue, VBool(b)))
  {
    obj[key := JBool(b)]
  }

  // ----- FloatAsZero and DoubleAsZero -----
  // These hold a genuine `Float`/`Double` and fall back to that type's zero,
  // unlike `Default<Float.Zero>` and `Default<Double.Zero>`, whose value is an
  // `Int`. Floating-point values are opaque here: `F` is the float type,
  // `decodeFloat` the decoder's `decode(Float.self)` (or `Double.self`) and
  // `zero` the literal `0` read at that type. One rule serves both wrappers.

  /** `(try? decode(Float.self)) ?? 0`, and the same for `Double`. */
  function FloatAsZeroDecode<F>(decodeFloat: Json -> Result<F, DecodingError>, zero: F, j: Json): (x: F)
    ensures decodeFloat(j).Ok? ==> x == decodeFloat(j).value
    ensures decodeFloat(j).Err? ==> x == zero
  {
    decodeFloat(j).ToOption().GetOr(zero)
  }

  /** Keyed decode of a `FloatAsZero`/`DoubleAsZero`: never throws, gives the zero
      for a missing key and otherwise what single-value decode gives. */
  function FloatAsZeroKeyed<F>(mode: BuildMode, decodeFloat: Json -> Result<F, DecodingError>, zero: F,
                               obj: map<string, Json>, key: string): (r: Result<F, DecodingError>)
    ensures r.Ok?
    ensures key !in obj ==> r.value == zero
    ensures key in obj && obj[key] == JNull && decodeFloat(JNull).Err? ==> r.value == zero
    ensures key in obj && obj[key] != JNull ==> r.value == FloatAsZeroDecode(decodeFloat, zero, obj[key])
  {
    DecodeIfPresent(mode, obj, key, j => Ok(FloatAsZeroDecode(decodeFloat, zero, j)))
      .MapValue((o: Option<F>) => o.GetOr(zero))
  }

  /** Keyed encode of a `FloatAsZero`/`DoubleAsZero`: always writes the held value
      at the key and changes no other key. */
  function FloatAsZeroEncode<F>(encodeFloat: F -> Json, obj: map<string, Json>, key: string,
                                x: F): (m: map<string, Json>)
    ensures m.Keys == obj.Keys + {key}
    ensures m[key] == encodeFloat(x)
    ensures forall other :: other in obj && other != key ==> m[other] == obj[other]
  {
    obj[key := encodeFloat(x)]
  }

  /** A `FloatAsZero` whose value the decoder reads back from its encoding survives
      keyed encode and decode. */
  lemma FloatAsZeroRoundTrip<F>(mode: BuildMode, decodeFloat: Json -> Result<F, DecodingError>, zero: F,
                                encodeFloat: F -> Json, obj: map<string, Json>, key: string, x: F)
    requires encodeFloat(x) != JNull
    requires decodeFloat(encodeFloat(x)) == Ok(x)
    ensures FloatAsZeroKeyed(mode, decodeFloat, zero, FloatAsZeroEncode(encodeFloat, obj, key, x), key) == Ok(x)
  {
  }
}

=== FILE: wrappers.dfy ===
/** Option and Result, the two failure-carrying shapes of the model.
    Swift's `T?` becomes Option; a `throws` function becomes one returning Result. */
module Wrappers {

  datatype Option<+T> = None | Some(value: T) {

    /** Swift's `??`: the held value, or the fallback when there is none. */
    function GetOr(fallback: T): T {
      match this
      case Some(v) => v
      case None => fallback
    }
  }

  datatype Result<+R, +E> = Ok(value: R) | Err(error: E) {

    /** Applies `f` to a success and passes a failure through untouched. */
    function MapValue<U>(f: R -> U): Result<U, E> {
      match this
      case Ok(v) => Ok(f(v))
      case Err(e) => Err(e)
    }

    /** Re-wraps a failure and passes a success through untouched. */
    function MapError<F>(f: E -> F): Result<R, F> {
      match this
      case Ok(v) => Ok(v)
      case Err(e) => Err(f(e))
    }

    /** Swift's `try?`: a success becomes `Some`, any error becomes `None`. */
    function ToOption(): Option<R> {
      match this
      case Ok(v) => Some(v)
      case Err(_) => None
    }
  }
}
